=== FILE: README.md ===
# Reefscape robot core, modelled in Dafny

A model of the decision logic of a mecanum-drive competition robot (FRC team 5243, season "Reefscape"),
in four parts, one Dafny module per Java source file:

- `Drive` (`drive.dfy`): the joystick shaping of `DriveSubsystem.DSMechDrive`. It applies a circular
  deadzone of radius 0.1 on (x, y) and a linear deadzone of 0.1 on the twist z. The planar vector is
  scaled by the square root of its squared magnitude capped at 1, and z becomes z·|z|. The module also
  models the stick-to-axis mapping of the joystick drive `mechDrive()`. `MecanumDrive.driveCartesian`
  is a foreign sink: the model returns the `Cartesian` triple it would be called with.
- `Align` (`align.dfy`): the `AlignCoralAuto` command, as a two-phase machine (Active, then Done). The
  hooks are pure functions. `initialize` and `end` return the next state and their ordered side
  effects on the Limelight pipeline and the drive. `execute` returns only its side effects, because it
  leaves the state alone. `isFinished` returns a boolean. `Tick` and `Run`
  sequence the hooks the way the command scheduler does.
- `Elevator` (`elevator.dfy`): the travel-limit gate of `ElevatorSubsytem.applySpeed`, the throttle
  blend of `elevator()`, and `isStill`.
- `Utilities` (`utilities.dfy`): the rotation/distance conversions through the wheel circumference,
  and the per-encoder (distance, time) memo of `linearVelocity`.

Two helper modules support them. `Numerics` holds `Math.abs`, `Math.signum`, the square-root relation
and positive reals. `Wrappers` holds a `Result` type for the one exception path.

Java `double` is modelled as Dafny `real`. There is no rounding, and no infinities except where the
code divides by zero (`Utilities.Velocity.NonFinite`). `Math.sqrt` is a foreign call. The shaping
functions take its answer `root` as a parameter and require `root >= 0 && root * root == s`. A real
root always exists, so this excludes no stick position, and `Numerics.SqrtUnique` shows it is
determined. The project's `Constants` class is not part of this model. So the wheel diameter is a
positive parameter, and the elevator's height per rotation and maximum height are configuration
parameters. `Math.PI` is the real 3.141592653589793, and 6 inches is 0.1524 m. The Limelight offset
`tx`, the timers, the encoders, the limit switch and the joysticks are plain inputs.

Three properties of the code that a reader might not expect:

- Alignment completion has no settle window. The timer restarts only in `initialize`
  (AlignCoralAuto.java:56), and it is not restarted when the offset leaves tolerance. So once 3 s have
  passed, the first reading within ±2° ends the command. `Align.NotASettleWindow` exhibits a run that
  ends on a single in-tolerance reading that directly follows an out-of-tolerance one.
- The cap at DriveSubsystem.java:174 limits only the scale factor. Over-unit input passes through
  unchanged (`Drive.OverUnitPassesThrough`), so a corner of the stick commands a planar magnitude of
  up to √2.
- In `DSMechDrive` the squared response is always applied: there is no switch that turns it off.

## Model

| member | source | states |
|---|---|---|
| Numerics.Abs | src/main/java/frc/robot/subsystems/DriveSubsystem.java:172 | Math.abs: the result is non-negative and is r or −r |
| Numerics.Signum | src/main/java/frc/robot/commands/AlignCoralAuto.java:69 | Math.signum: the result is −1, 0 or 1, positive iff r is positive and negative iff r is negative |
| Numerics.SqrtUnique | src/main/java/frc/robot/subsystems/DriveSubsystem.java:178 | a non-negative square root is unique, so the shaping output is a function of the stick alone |
| Drive.CappedSquare | src/main/java/frc/robot/subsystems/DriveSubsystem.java:168-174 | the value handed to Math.sqrt is min(x²+y², 1): it equals x²+y² inside the unit disk and 1 outside it, so it lies in [0, 1] |
| Drive.TwistResponse | src/main/java/frc/robot/subsystems/DriveSubsystem.java:172-182 | twist output is zero iff \|z\| < 0.1; otherwise it has z's sign and magnitude z² |
| Drive.PlanarResponse | src/main/java/frc/robot/subsystems/DriveSubsystem.java:167-181 | inside the circular deadzone the planar pair is (0, 0); outside it is the stick scaled by Math.sqrt's answer for the capped square |
| Drive.PlanarScaling | src/main/java/frc/robot/subsystems/DriveSubsystem.java:167-181 | inside the deadzone the planar output is (0, 0); outside it is the stick scaled by a factor m > 0 with m² = min(x²+y², 1) |
| Drive.PlanarDeadzone | src/main/java/frc/robot/subsystems/DriveSubsystem.java:167-169 | planar output is (0, 0) iff x²+y² < 0.01 over the reals, so x²+y² = 0.01 stays live in the model (see "## Left out" on rounding at this boundary) |
| Drive.PlanarDirection | src/main/java/frc/robot/subsystems/DriveSubsystem.java:177-181 | the planar output points along the stick (x'·y = y'·x) and flips the sign of neither axis |
| Drive.PlanarMagnitude | src/main/java/frc/robot/subsystems/DriveSubsystem.java:174-181 | outside the deadzone the squared output magnitude is (x²+y²)·min(x²+y², 1) |
| Drive.ShapeStick | src/main/java/frc/robot/subsystems/DriveSubsystem.java:165-185 | the planar arguments to driveCartesian are both zero iff the stick is in the circular deadzone, and outside it they are (root·x, root·y) with root = √min(x²+y², 1); the twist argument is zero iff \|z\| < 0.1, and otherwise it has z's sign and magnitude z² |
| Drive.InsideUnitDisk | src/main/java/frc/robot/subsystems/DriveSubsystem.java:174-181 | inside the unit disk, live output magnitude is the input magnitude squared, and output never exceeds input |
| Drive.OverUnitPassesThrough | src/main/java/frc/robot/subsystems/DriveSubsystem.java:174-180 | when x²+y² > 1 the factor is 1 and the planar output is (x, y) unchanged |
| Drive.TwistNeverGrows | src/main/java/frc/robot/subsystems/DriveSubsystem.java:182 | for \|z\| ≤ 1 the twist output never exceeds \|z\| |
| Drive.TwistIndependent | src/main/java/frc/robot/subsystems/DriveSubsystem.java:172-182 | the twist output depends only on z |
| Drive.PlanarIndependent | src/main/java/frc/robot/subsystems/DriveSubsystem.java:168-181 | the planar output depends only on (x, y), whatever the twist and whichever square root is supplied |
| Drive.JoystickDrive | src/main/java/frc/robot/subsystems/DriveSubsystem.java:198-200 | forward = −primary Y, strafe = primary X, twist = secondary X, all shaped; forward never has the stick's Y sign and strafe never opposes its X sign |
| Align.DefaultConfig | src/main/java/frc/robot/commands/AlignCoralAuto.java:34-36 | the two-argument constructor selects pipeline 2 |
| Align.ConfigFor | src/main/java/frc/robot/commands/AlignCoralAuto.java:38-47 | the three-argument constructor keeps the given pipeline, with turning off |
| Align.Strafe | src/main/java/frc/robot/commands/AlignCoralAuto.java:66-69 | out of tolerance, 0.075 ≤ \|strafe\| ≤ 1 and strafe has the sign of x |
| Align.StrafePieces | src/main/java/frc/robot/commands/AlignCoralAuto.java:66-69 | strafe is ±1 when \|x\| ≥ 150, ±0.075 when 2 < \|x\| < 11.25, x/150 otherwise |
| Align.StrafeMonotone | src/main/java/frc/robot/commands/AlignCoralAuto.java:66-69 | strafe is non-decreasing in x over the out-of-tolerance region |
| Align.Execute | src/main/java/frc/robot/commands/AlignCoralAuto.java:61-77 | no command iff −2 ≤ x ≤ 2; otherwise one command with forward 0, turn 0 and a bounded strafe of x's sign |
| Align.Initialize | src/main/java/frc/robot/commands/AlignCoralAuto.java:54-57 | selects the configured pipeline, restarts the timer (elapsed 0), enters Active |
| Align.Elapsed | src/main/java/frc/robot/commands/AlignCoralAuto.java:56-90 | Timer.get after the restart in initialize: the restart time plus the reading is the current time, and it is non-negative iff the clock has not gone back |
| Align.IsFinished | src/main/java/frc/robot/commands/AlignCoralAuto.java:88-91 | finished iff \|x\| ≤ 2 and at least 3 s since initialize |
| Align.End | src/main/java/frc/robot/commands/AlignCoralAuto.java:81-84 | sets pipeline 0, then commands (0, 0, 0), enters Done, keeps the rest of the state |
| Align.EndIgnoresInterruption | src/main/java/frc/robot/commands/AlignCoralAuto.java:81-84 | end behaves the same whether or not the command was interrupted |
| Align.Tick | src/main/java/frc/robot/commands/AlignCoralAuto.java:61-91 | a pass over an Active command issues execute's single strafe command (0, strafe(x), 0) when x is out of tolerance. In tolerance it issues nothing, or end's restore-and-stop if isFinished holds. The pass ends the command iff isFinished holds; a Done command does nothing; configuration and timer are untouched |
| Align.Run | src/main/java/frc/robot/commands/AlignCoralAuto.java:61-91 | repeated scheduler passes keep the configuration and timer start, and a Done command issues nothing; `Align.RunStrafesWhileActive` shows a run issues execute's strafe for every out-of-tolerance reading before the command finishes |
| Align.RunStrafesWhileActive | src/main/java/frc/robot/commands/AlignCoralAuto.java:61-74 | while no earlier reading has finished the command, an out-of-tolerance reading x makes the run issue mechDrive(0, strafe(x), 0) |
| Align.RunFinishesIff | src/main/java/frc/robot/commands/AlignCoralAuto.java:88-91 | over a sequence of readings the command ends iff some reading satisfies isFinished |
| Align.RunFromDone | src/main/java/frc/robot/commands/AlignCoralAuto.java:81-84 | once Done, the command issues nothing further |
| Align.RunStopsOnce | src/main/java/frc/robot/commands/AlignCoralAuto.java:81-84 | a run that ended restores the pipeline exactly once and commands the (0, 0, 0) stop exactly once, and its last two actions are that restore followed by that stop; a run that has not ended does neither |
| Align.RunCommandsBounded | src/main/java/frc/robot/commands/AlignCoralAuto.java:72-74 | every drive command of a run has forward 0, turn 0 and \|strafe\| ≤ 1 |
| Align.NotASettleWindow | src/main/java/frc/robot/commands/AlignCoralAuto.java:88-91 | readings 10°, 1°, 3° leave the command Active; a single 1° reading at 3.02 s then ends it |
| Elevator.ApplySpeed | src/main/java/frc/robot/subsystems/ElevatorSubsytem.java:103-114 | when `limitSwitch.get()` is true the position is zeroed; the output is 0 or the request; it is always safe (no descent at the bottom, no ascent at max height − 6 in); a safe request passes through unchanged |
| Elevator.ApplySpeedCases | src/main/java/frc/robot/subsystems/ElevatorSubsytem.java:104-111 | zero request gives 0; `limitSwitch.get()` true with a negative request gives 0; each blocked direction gives 0; a request strictly between the limits passes |
| Elevator.ApplySpeedIdempotent | src/main/java/frc/robot/subsystems/ElevatorSubsytem.java:108-111 | gating an already-gated output changes nothing |
| Elevator.ThrottleBlend | src/main/java/frc/robot/subsystems/ElevatorSubsytem.java:93-101 | the motor speed is the mean of the two throttles and lies between them |
| Elevator.ThrottleBlendSymmetric | src/main/java/frc/robot/subsystems/ElevatorSubsytem.java:94-95 | the two throttles are interchangeable |
| Elevator.ThrottleBlendInRange | src/main/java/frc/robot/subsystems/ElevatorSubsytem.java:94-95 | throttles in [−1, 1] give a speed in [−1, 1] |
| Elevator.IsStill | src/main/java/frc/robot/subsystems/ElevatorSubsytem.java:121-123 | still iff neither encoder reports motion in either direction |
| Utilities.Circumference | src/main/java/frc/robot/util/Utilities.java:41 | the wheel circumference π·D is positive |
| Utilities.InchesToRotations | src/main/java/frc/robot/util/Utilities.java:40-42 | the rotations returned, times the circumference, are the requested inches |
| Utilities.RotationsToInches | src/main/java/frc/robot/util/Utilities.java:62-64 | the inches returned, divided by the circumference, are the given rotations |
| Utilities.DistanceToRotations | src/main/java/frc/robot/util/Utilities.java:50-52 | the rotations returned, times the circumference, are the distance in inches |
| Utilities.RotationsToDistance | src/main/java/frc/robot/util/Utilities.java:72-74 | the distance returned, in inches over the circumference, is the given rotations |
| Utilities.Inches | src/main/java/frc/robot/util/Utilities.java:73 | a Distance built from inches reads back the same number of inches |
| Utilities.InchesRoundTrip | src/main/java/frc/robot/util/Utilities.java:39-64 | inchesToRotations and rotationsToInches are inverse to each other in both orders |
| Utilities.DistanceRoundTrip | src/main/java/frc/robot/util/Utilities.java:49-74 | distanceToRotations and rotationsToDistance are inverse to each other in both orders |
| Utilities.DistanceAgreesWithInches | src/main/java/frc/robot/util/Utilities.java:49-74 | the Distance conversions agree with the inch conversions |
| Utilities.RotationsToInchesLinear | src/main/java/frc/robot/util/Utilities.java:61-64 | 0 ↦ 0, 1 rotation ↦ π·D inches, sums map to sums, sign is kept |
| Utilities.ToRotationsLinear | src/main/java/frc/robot/util/Utilities.java:39-52 | 0 ↦ 0, π·D inches ↦ 1 rotation, sums map to sums, sign is kept |
| Utilities.Baseline | src/main/java/frc/robot/util/Utilities.java:89-90 | a channel without a record starts from (distance 0, time 0) |
| Utilities.LinearVelocity | src/main/java/frc/robot/util/Utilities.java:86-100 | empty channel array throws; otherwise the velocity times the time step is the distance step, it is non-finite iff the time step is 0, the record of channel[0] becomes (distance, time), and every other record is unchanged |
| Utilities.OnlyFirstChannelMatters | src/main/java/frc/robot/util/Utilities.java:89-97 | only encoderChannels[0] is consulted |
| Utilities.SecondReadingDifferences | src/main/java/frc/robot/util/Utilities.java:86-100 | two readings of one encoder at different times give the distance between them over the time between them |

## Left out

- `DriveSubsystem` constructor, SysId routine, `mechDrive(x, y, z)`, `fieldMechDrive`, `mechDriveLimiter`: motor
  configuration and the WPILib `MecanumDrive` and `SlewRateLimiter` they call are foreign code.
- `MecanumDrive.driveCartesian`: an opaque sink; the model stops at the arguments it receives.
- Math.sqrt is not computed; its answer is a parameter constrained to be the square root.
- Floating point: rounding, NaN and infinities are not modelled except the division by zero in `linearVelocity`.
  In particular, in Java `stickDeadzone * stickDeadzone` rounds to 0.010000000000000002. So a stick such as
  (0.06, 0.08), whose `squaredMag` rounds to exactly 0.01, is zeroed by DriveSubsystem.java:169, while the
  model keeps it live.
- `Utilities.LinearVelocity`: the clock reading `now` is a free input. In `Utilities.java` the static
  `Timer` (line 15) is never started, and an unstarted WPILib timer reads 0. With the (0, 0) baseline,
  every call then divides by zero and gives `NonFinite`. A finite velocity requires code outside
  `Utilities.java` to start that timer, and the model does not assume that it does.
- `Utilities.LinearVelocity`: does not distinguish +Infinity, −Infinity and NaN; all are `NonFinite`.
- `Utilities.LinearVelocity`: takes `encoder.get() / THROUGH_BORE_COUNTS_PER_REVOLUTION` as an input
  `rotations`, because the constant's type is not visible (Java truncates if both operands are int).
- `Utilities.testMotor`, the `Data` index enum and the static `Timer`: a motor write, an array-index
  convenience, and a clock that is an input here.
- `Align.Tick`: the command reads `tx` separately in `execute` and `isFinished`; the model uses one reading per
  scheduler pass. The scheduler's own sequencing (execute, then isFinished, then end) is WPILib's.
- `AlignCoralAuto`'s `turning` flag is stored but never read by the code, so it has no effect in the model.
- `ElevatorSubsytem` constructor, feedforward and closed-loop configuration, `setTargetPosition`: hardware
  configuration with no decision logic. The `println` in `elevator()` is output only.
- `Elevator.ApplySpeed`: assumes the encoder reports the zeroed position as soon as `setPosition(0)` is
  issued; whether the motor controller applies it within the same call is hardware timing outside the model.
- `Elevator.ThrottleBlend`: the code sends this blend to the motor directly, not through `applySpeed`, so
  operator control of the elevator bypasses the limit gate. The model states the blend and the gate separately
  and does not claim the operator path is safe.
- `CameraSubsystem`, `Autos`, the `getInstance` singletons and the `example*` stubs: I/O, command wiring over
  foreign libraries, and placeholders.

=== FILE: align.dfy ===
/**
 * AlignCoralAuto: the command that strafes the robot sideways until the
 * front Limelight's horizontal target offset tx is within tolerance. The
 * command is a two-phase machine (Active, then Done). initialize and end
 * return the new state and the side effects, in order, that the Java hook
 * performs on the Limelight pipeline and on the drive; execute returns only
 * its side effects, and isFinished a boolean.
 * The Limelight reading and the FPGA clock are inputs.
 */
module Align {
  import opened Numerics
  import Drive

  /** Offsets (degrees) within [-Tolerance, Tolerance] count as aligned. */
  const Tolerance: real := 2.0
  /** The offset (degrees) at which strafe reaches full scale. */
  const FullScaleOffset: real := 150.0
  /** The smallest strafe magnitude ever commanded. */
  const MinimumEffort: real := 0.075
  /** Seconds since initialize after which an aligned reading ends the command. */
  const SettleSeconds: real := 3.0
  /** The pipeline selected when none is given to the constructor. */
  const DefaultPipeline: int := 2
  /** The pipeline restored when the command ends. */
  const RestPipeline: int := 0

  /** Constructor arguments; turning is stored by the command but never read. */
  datatype Config = Config(pipeline: int, turning: bool)

  /** AlignCoralAuto(drive, camera) */
  function DefaultConfig(): (c: Config)
    ensures c == ConfigFor(DefaultPipeline)
    ensures c.pipeline == 2
  {
    ConfigFor(DefaultPipeline)
  }

  /** AlignCoralAuto(drive, camera, pipeline) */
  function ConfigFor(pipeline: int): (c: Config)
    ensures c.pipeline == pipeline && !c.turning
  {
    Config(pipeline, false)
  }

  datatype Phase = Active | Done

  /** The command's own state: its configuration, its phase and when its timer was restarted. */
  datatype AlignState = AlignState(config: Config, phase: Phase, timerStart: real)

  /** The side effects the command's hooks perform. */
  datatype Action =
    | SetPipeline(index: int)                   // LimelightHelpers.setPipelineIndex on the front camera
    | DriveCartesian(command: Drive.Cartesian)  // DriveSubsystem.mechDrive, i.e. driveCartesian

  /** A transition's result: the next state and the side effects in the order performed. */
  datatype Step = Step(state: AlignState, actions: seq<Action>)

  /** One reading of tx together with the time it was taken. */
  datatype Sample = Sample(offset: real, time: real)

  /** The command's tolerance test: x is neither below -Tolerance nor above Tolerance. */
  predicate InTolerance(x: real)
  {
    !(x < -Tolerance || x > Tolerance)
  }

  /** The strafe speed execute computes from the offset x. */
  function Strafe(x: real): (s: real)
    ensures !InTolerance(x) ==> MinimumEffort <= Abs(s) <= 1.0
    ensures !InTolerance(x) ==> Signum(s) == Signum(x)
  {
    var raw := x / FullScaleOffset;
    var upper := if raw > 1.0 then 1.0 else raw;
    var lower := if upper < -1.0 then -1.0 else upper;
    if Abs(lower) < MinimumEffort then Signum(lower) * MinimumEffort else lower
  }

  /**
   * Strafe piece by piece: saturated at full scale, lifted to the minimum
   * effort near the tolerance band, proportional in between.
   */
  lemma StrafePieces(x: real)
    requires !InTolerance(x)
    ensures Abs(x) >= FullScaleOffset ==> Strafe(x) == Signum(x)
    ensures Abs(x) < MinimumEffort * FullScaleOffset ==> Strafe(x) == Signum(x) * MinimumEffort
    ensures MinimumEffort * FullScaleOffset <= Abs(x) < FullScaleOffset ==> Strafe(x) == x / FullScaleOffset
  {
  }

  /** Outside the tolerance band a larger offset never yields a smaller strafe. */
  lemma StrafeMonotone(x1: real, x2: real)
    requires !InTolerance(x1) && !InTolerance(x2)
    requires x1 <= x2
    ensures Strafe(x1) <= Strafe(x2)
  {
    StrafePieces(x1);
    StrafePieces(x2);
  }

  /** execute: no command inside the tolerance band, otherwise a pure strafe. */
  function Execute(x: real): (actions: seq<Action>)
    ensures actions == [] <==> InTolerance(x)
    ensures |actions| <= 1
    ensures forall a :: a in actions ==>
      a.DriveCartesian? && a.command.xSpeed == 0.0 && a.command.zSpeed == 0.0 &&
      MinimumEffort <= Abs(a.command.ySpeed) <= 1.0 && Signum(a.command.ySpeed) == Signum(x)
  {
    if !InTolerance(x) then
      var turn := 0.0;
      [DriveCartesian(Drive.Cartesian(0.0, Strafe(x), turn))]
    else
      []
  }

  /** initialize: select the configured pipeline and restart the timer at now. */
  function Initialize(config: Config, now: real): (st: Step)
    ensures st.state.phase == Active && st.state.config == config
    ensures Elapsed(st.state, now) == 0.0
    ensures st.actions == [SetPipeline(config.pipeline)]
  {
    Step(AlignState(config, Active, now), [SetPipeline(config.pipeline)])
  }

  /** Timer.get(): seconds since the last restart. */
  function Elapsed(s: AlignState, now: real): (e: real)
    ensures s.timerStart + e == now
    ensures e >= 0.0 <==> now >= s.timerStart
  {
    now - s.timerStart
  }

  /**
   * isFinished: aligned at this reading and at least SettleSeconds since
   * initialize. The timer is not restarted when x leaves the band, so this is
   * not a continuous settle window (see NotASettleWindow).
   */
  function IsFinished(s: AlignState, x: real, now: real): (r: bool)
    ensures r <==> Abs(x) <= Tolerance && now >= s.timerStart + SettleSeconds
  {
    InTolerance(x) && Elapsed(s, now) >= SettleSeconds
  }

  /** end(interrupted): restore pipeline 0 and stop the drive, whatever the reason. */
  function End(s: AlignState, interrupted: bool): (st: Step)
    ensures st.state == s.(phase := Done)
    ensures st.actions == [SetPipeline(RestPipeline), DriveCartesian(Drive.Cartesian(0.0, 0.0, 0.0))]
  {
    Step(s.(phase := Done), [SetPipeline(RestPipeline), DriveCartesian(Drive.Cartesian(0.0, 0.0, 0.0))])
  }

  /** The fail-safe stop is the same whether the command finished or was interrupted. */
  lemma EndIgnoresInterruption(s: AlignState)
    ensures End(s, true) == End(s, false)
  {
  }

  /**
   * One scheduler pass over an Active command: execute, then isFinished, then
   * end(false) when it holds. A Done command is no longer scheduled.
   */
  function Tick(s: AlignState, sample: Sample): (st: Step)
    ensures st.state.config == s.config && st.state.timerStart == s.timerStart
    ensures s.phase == Done ==> st == Step(s, [])
    ensures s.phase == Active ==>
      (st.state.phase == Done <==> IsFinished(s, sample.offset, sample.time))
    ensures s.phase == Active && !InTolerance(sample.offset) ==>
      st.actions == [DriveCartesian(Drive.Cartesian(0.0, Strafe(sample.offset), 0.0))]
    ensures s.phase == Active && InTolerance(sample.offset) ==>
      st.actions == if st.state.phase == Done then End(s, false).actions else []
  {
    match s.phase
    case Done => Step(s, [])
    case Active =>
      var executed := Execute(sample.offset);
      if IsFinished(s, sample.offset, sample.time) then
        var ended := End(s, false);
        Step(ended.state, executed + ended.actions)
      else
        Step(s, executed)
  }

  /**
   * Ticks the command over a sequence of readings: the configuration and the
   * timer never change, and a Done command does nothing.
   */
  function Run(s: AlignState, samples: seq<Sample>): (st: Step)
    ensures st.state.config == s.config && st.state.timerStart == s.timerStart
    ensures s.phase == Done ==> st == Step(s, [])
    decreases |samples|
  {
    if |samples| == 0 then Step(s, [])
    else
      var first := Tick(s, samples[0]);
      var rest := Run(first.state, samples[1..]);
      Step(rest.state, first.actions + rest.actions)
  }

  /** The command finishes on a reading exactly when that reading satisfies isFinished. */
  predicate FinishesOn(s: AlignState, sample: Sample)
  {
    IsFinished(s, sample.offset, sample.time)
  }

  /** Number of actions satisfying p. */
  function Count(actions: seq<Action>, p: Action -> bool): nat
  {
    if |actions| == 0 then 0
    else (if p(actions[0]) then 1 else 0) + Count(actions[1..], p)
  }

  lemma CountAppend(a: seq<Action>, b: seq<Action>, p: Action -> bool)
    ensures Count(a + b, p) == Count(a, p) + Count(b, p)
  {
    if |a| == 0 {
      assert a + b == b;
    } else {
      assert (a + b)[1..] == a[1..] + b;
      CountAppend(a[1..], b, p);
    }
  }

  predicate IsPipelineChange(a: Action)
  {
    a.SetPipeline?
  }

  /** The fail-safe stop end performs: driveCartesian(0, 0, 0). */
  predicate IsStop(a: Action)
  {
    a == DriveCartesian(Drive.Cartesian(0.0, 0.0, 0.0))
  }

  /** Number of pipeline changes among the actions. */
  function PipelineChanges(actions: seq<Action>): nat
  {
    Count(actions, IsPipelineChange)
  }

  /** Number of fail-safe stops among the actions. */
  function Stops(actions: seq<Action>): nat
  {
    Count(actions, IsStop)
  }

  /** execute never changes the pipeline and never commands a full stop. */
  lemma ExecuteNeitherChangesNorStops(x: real)
    ensures PipelineChanges(Execute(x)) == 0 && Stops(Execute(x)) == 0
  {
    var executed := Execute(x);
    if |executed| == 1 {
      assert executed[0] in executed;
      assert executed[0].command.ySpeed != 0.0;
      assert !IsPipelineChange(executed[0]) && !IsStop(executed[0]);
      assert executed[1..] == [];
      assert Count(executed, IsPipelineChange) == Count(executed[1..], IsPipelineChange);
      assert Count(executed, IsStop) == Count(executed[1..], IsStop);
    }
  }

  /**
   * An Active command ends within a run exactly when some reading satisfies
   * isFinished, and the state apart from the phase never changes.
   */
  lemma {:induction false} RunFinishesIff(s: AlignState, samples: seq<Sample>)
    requires s.phase == Active
    ensures Run(s, samples).state.config == s.config
    ensures Run(s, samples).state.timerStart == s.timerStart
    ensures Run(s, samples).state.phase == Done <==>
      exists i :: 0 <= i < |samples| && FinishesOn(s, samples[i])
    decreases |samples|
  {
    if |samples| > 0 {
      var first := Tick(s, samples[0]);
      if first.state.phase == Done {
        RunFromDone(first.state, samples[1..]);
      } else {
        assert first.state == s;
        RunFinishesIff(s, samples[1..]);
        forall i | 1 <= i < |samples|
          ensures samples[i] == samples[1..][i - 1]
        {
        }
      }
    }
  }

  /** A Done command does nothing and stays Done. */
  lemma {:induction false} RunFromDone(s: AlignState, samples: seq<Sample>)
    requires s.phase == Done
    ensures Run(s, samples) == Step(s, [])
    decreases |samples|
  {
    if |samples| > 0 {
      RunFromDone(s, samples[1..]);
    }
  }

  /**
   * From Active, a run changes the pipeline and commands the fail-safe stop
   * once each if the command ended (in end) and never otherwise, and a run
   * that ended closes with end's two actions.
   */
  lemma {:induction false} RunStopsOnce(s: AlignState, samples: seq<Sample>)
    requires s.phase == Active
    ensures var r := Run(s, samples);
      PipelineChanges(r.actions) == if r.state.phase == Done then 1 else 0
    ensures var r := Run(s, samples);
      Stops(r.actions) == if r.state.phase == Done then 1 else 0
    ensures var r := Run(s, samples); r.state.phase == Done ==>
      |r.actions| >= 2 &&
      r.actions[|r.actions| - 2..] == [SetPipeline(RestPipeline), DriveCartesian(Drive.Cartesian(0.0, 0.0, 0.0))]
    decreases |samples|
  {
    if |samples| > 0 {
      var first := Tick(s, samples[0]);
      var rest := Run(first.state, samples[1..]);
      var executed := Execute(samples[0].offset);
      var stop := End(s, false).actions;
      ExecuteNeitherChangesNorStops(samples[0].offset);
      CountAppend(first.actions, rest.actions, IsPipelineChange);
      CountAppend(first.actions, rest.actions, IsStop);
      if first.state.phase == Done {
        assert rest == Step(first.state, []);
        CountAppend(executed, stop, IsPipelineChange);
        CountAppend(executed, stop, IsStop);
        var all := first.actions + rest.actions;
        assert all == executed + stop;
        assert all[|all| - 2..] == stop;
      } else {
        assert first.actions == executed;
        RunStopsOnce(s, samples[1..]);
        var all := first.actions + rest.actions;
        if rest.state.phase == Done {
          assert all[|all| - 2..] == rest.actions[|rest.actions| - 2..];
        }
      }
    }
  }

  /**
   * A run drives while misaligned: if no earlier reading finished the command
   * and reading i is out of tolerance, execute's strafe for it is issued.
   */
  lemma {:induction false} RunStrafesWhileActive(s: AlignState, samples: seq<Sample>, i: int)
    requires s.phase == Active && 0 <= i < |samples|
    requires forall j :: 0 <= j < i ==> !FinishesOn(s, samples[j])
    requires !InTolerance(samples[i].offset)
    ensures DriveCartesian(Drive.Cartesian(0.0, Strafe(samples[i].offset), 0.0)) in Run(s, samples).actions
    decreases i
  {
    var first := Tick(s, samples[0]);
    var rest := Run(first.state, samples[1..]);
    var strafe := DriveCartesian(Drive.Cartesian(0.0, Strafe(samples[i].offset), 0.0));
    if i == 0 {
      assert first.actions[0] == strafe;
      assert (first.actions + rest.actions)[0] == strafe;
    } else {
      assert !FinishesOn(s, samples[0]);
      assert first.state == s;
      forall j | 0 <= j < i - 1
        ensures !FinishesOn(s, samples[1..][j])
      {
        assert samples[1..][j] == samples[j + 1];
      }
      assert samples[1..][i - 1] == samples[i];
      RunStrafesWhileActive(s, samples[1..], i - 1);
      assert strafe in rest.actions;
      assert Run(s, samples).actions == first.actions + rest.actions;
    }
  }

  /** Every drive command of a run is a pure strafe of magnitude at most 1 (the final stop is 0). */
  lemma {:induction false} RunCommandsBounded(s: AlignState, samples: seq<Sample>)
    ensures forall a :: a in Run(s, samples).actions && a.DriveCartesian? ==>
      a.command.xSpeed == 0.0 && a.command.zSpeed == 0.0 && Abs(a.command.ySpeed) <= 1.0
    decreases |samples|
  {
    if |samples| > 0 {
      var first := Tick(s, samples[0]);
      RunCommandsBounded(first.state, samples[1..]);
    }
  }

  /**
   * The command ends on a single aligned reading once three seconds have
   * passed, although the reading just before it was outside the band: three
   * readings leave it Active, the fourth ends it.
   */
  lemma NotASettleWindow(start: AlignState, samples: seq<Sample>)
    requires start == AlignState(Config(DefaultPipeline, false), Active, 0.0)
    requires samples == [Sample(10.0, 1.0), Sample(1.0, 2.0), Sample(3.0, 3.0), Sample(1.0, 3.02)]
    ensures Run(start, samples[..3]).state.phase == Active
    ensures Run(start, samples).state.phase == Done
  {
    assert !FinishesOn(start, samples[0]) && !FinishesOn(start, samples[1]) && !FinishesOn(start, samples[2]);
    assert FinishesOn(start, samples[3]);
    RunFinishesIff(start, samples);
    RunFinishesIff(start, samples[..3]);
  }
}

=== FILE: drive.dfy ===
/**
 * DriveSubsystem: the stick shaping that DSMechDrive applies before it hands
 * (x, y, z) to MecanumDrive.driveCartesian, and the stick-to-axis mapping of
 * the joystick drive. driveCartesian itself (mecanum kinematics) is a foreign
 * sink; the model returns the arguments it would be called with.
 */
module Drive {
  import opened Numerics

  /** The three arguments handed to MecanumDrive.driveCartesian: forward, strafe (left positive), twist. */
  datatype Cartesian = Cartesian(xSpeed: real, ySpeed: real, zSpeed: real)

  /** Radius of the circular (x, y) deadzone and half-width of the twist deadzone. */
  const StickDeadzone: real := 0.1

  /** The squared planar magnitude, capped at 1 (the value handed to Math.sqrt). */
  function CappedSquare(x: real, y: real): (m: real)
    ensures 0.0 <= m <= 1.0
    ensures m <= x * x + y * y
    ensures x * x + y * y <= 1.0 ==> m == x * x + y * y
    ensures x * x + y * y >= 1.0 ==> m == 1.0
  {
    var squaredMag := x * x + y * y;
    if squaredMag > 1.0 then 1.0 else squaredMag
  }

  /** Strictly inside the circular deadzone: the stick is treated as centred. */
  predicate InPlanarDeadzone(x: real, y: real)
  {
    x * x + y * y < StickDeadzone * StickDeadzone
  }

  /** Strictly inside the twist deadzone. */
  predicate InTwistDeadzone(z: real)
  {
    Abs(z) < StickDeadzone
  }

  /** Facts about the vector (k*x, k*y) for a non-negative factor k. */
  lemma ScaledVector(x: real, y: real, k: real)
    requires k >= 0.0
    ensures (k * x) * y == (k * y) * x
    ensures (k * x) * x >= 0.0 && (k * y) * y >= 0.0
    ensures (k * x) * (k * x) + (k * y) * (k * y) == (k * k) * (x * x + y * y)
  {
    assert (k * x) * x == k * (x * x);
    assert (k * y) * y == k * (y * y);
  }

  /** A positive factor keeps a non-zero vector non-zero. */
  lemma ScaledNonZero(x: real, y: real, k: real)
    requires k > 0.0 && (x != 0.0 || y != 0.0)
    ensures k * x != 0.0 || k * y != 0.0
  {
  }

  /** The twist response: linear deadzone, then z*|z|. */
  function TwistResponse(z: real): (t: real)
    ensures t == 0.0 <==> InTwistDeadzone(z)
    ensures !InTwistDeadzone(z) ==> Signum(t) == Signum(z) && Abs(t) == Abs(z) * Abs(z)
  {
    var z1 := if Abs(z) < StickDeadzone then 0.0 else z;
    if z1 != 0.0 then z1 * Abs(z1) else z1
  }

  /**
   * The planar response: circular deadzone, then scaling by root, which is
   * Math.sqrt's answer for CappedSquare(x, y). As in the code, scaling happens
   * only when the zeroed pair is not (0, 0).
   */
  function PlanarResponse(x: real, y: real, root: real): (r: (real, real))
    requires IsSqrt(root, CappedSquare(x, y))
    ensures InPlanarDeadzone(x, y) ==> r == (0.0, 0.0)
    ensures !InPlanarDeadzone(x, y) ==> r.0 == root * x && r.1 == root * y
  {
    var squaredMag := x * x + y * y;
    var zeroed := squaredMag < StickDeadzone * StickDeadzone;
    var x1 := if zeroed then 0.0 else x;
    var y1 := if zeroed then 0.0 else y;
    assert !zeroed ==> x1 != 0.0 || y1 != 0.0 by {
      if !zeroed { OutsideDeadzoneOffCentre(x, y); }
    }
    if x1 != 0.0 || y1 != 0.0 then (root * x1, root * y1) else (x1, y1)
  }

  /** A stick outside the deadzone is off centre. */
  lemma OutsideDeadzoneOffCentre(x: real, y: real)
    requires !InPlanarDeadzone(x, y)
    ensures x != 0.0 || y != 0.0
  {
  }

  /** Outside the deadzone: the facts about the scaled vector (root*x, root*y). */
  lemma LiveScaling(x: real, y: real, root: real)
    requires IsSqrt(root, CappedSquare(x, y))
    requires !InPlanarDeadzone(x, y)
    ensures root > 0.0
    ensures root * x != 0.0 || root * y != 0.0
    ensures (root * x) * y == (root * y) * x
    ensures (root * x) * x >= 0.0 && (root * y) * y >= 0.0
    ensures (root * x) * (root * x) + (root * y) * (root * y) == CappedSquare(x, y) * (x * x + y * y)
  {
    assert CappedSquare(x, y) > 0.0;
    assert root != 0.0;
    OutsideDeadzoneOffCentre(x, y);
    ScaledVector(x, y, root);
    ScaledNonZero(x, y, root);
  }

  /**
   * Inside the deadzone the planar output is (0, 0); outside it is the stick
   * scaled by the positive factor root, whose square is the capped squared
   * magnitude.
   */
  lemma PlanarScaling(x: real, y: real, root: real)
    requires IsSqrt(root, CappedSquare(x, y))
    ensures InPlanarDeadzone(x, y) ==> PlanarResponse(x, y, root) == (0.0, 0.0)
    ensures !InPlanarDeadzone(x, y) ==> PlanarResponse(x, y, root) == (root * x, root * y) && root > 0.0
  {
    if !InPlanarDeadzone(x, y) {
      assert !(x * x + y * y < StickDeadzone * StickDeadzone);
      OutsideDeadzoneOffCentre(x, y);
      LiveScaling(x, y, root);
      assert x != 0.0 || y != 0.0;
      assert PlanarResponse(x, y, root).0 == root * x;
      assert PlanarResponse(x, y, root).1 == root * y;
    }
  }

  /** The planar output is zero exactly when the stick is strictly inside the circle (0.01 itself is live). */
  lemma PlanarDeadzone(x: real, y: real, root: real)
    requires IsSqrt(root, CappedSquare(x, y))
    ensures PlanarResponse(x, y, root) == (0.0, 0.0) <==> InPlanarDeadzone(x, y)
  {
    PlanarScaling(x, y, root);
    if !InPlanarDeadzone(x, y) {
      LiveScaling(x, y, root);
    }
  }

  /** The planar command points the way the stick points: same direction, no sign flip on either axis. */
  lemma PlanarDirection(x: real, y: real, root: real)
    requires IsSqrt(root, CappedSquare(x, y))
    ensures var p := PlanarResponse(x, y, root); p.0 * y == p.1 * x
    ensures var p := PlanarResponse(x, y, root); p.0 * x >= 0.0 && p.1 * y >= 0.0
  {
    PlanarScaling(x, y, root);
    if !InPlanarDeadzone(x, y) {
      LiveScaling(x, y, root);
    }
  }

  /** Outside the deadzone the squared output magnitude is the squared input magnitude times its cap. */
  lemma PlanarMagnitude(x: real, y: real, root: real)
    requires IsSqrt(root, CappedSquare(x, y))
    requires !InPlanarDeadzone(x, y)
    ensures var p := PlanarResponse(x, y, root);
      p.0 * p.0 + p.1 * p.1 == CappedSquare(x, y) * (x * x + y * y)
  {
    PlanarScaling(x, y, root);
    LiveScaling(x, y, root);
  }

  /**
   * DSMechDrive's shaping of (x, y, z): the triple it hands to driveCartesian.
   * Math.sqrt is a foreign call: root is its answer for CappedSquare(x, y). A
   * real square root always exists, so the precondition excludes no stick
   * position, and by Numerics.SqrtUnique root is determined by (x, y).
   */
  function ShapeStick(x: real, y: real, z: real, root: real): (c: Cartesian)
    requires IsSqrt(root, CappedSquare(x, y))
    ensures c.xSpeed == 0.0 && c.ySpeed == 0.0 <==> InPlanarDeadzone(x, y)
    ensures c.zSpeed == 0.0 <==> InTwistDeadzone(z)
    ensures !InTwistDeadzone(z) ==> Signum(c.zSpeed) == Signum(z)
    ensures !InPlanarDeadzone(x, y) ==> c.xSpeed == root * x && c.ySpeed == root * y
    ensures !InTwistDeadzone(z) ==> Abs(c.zSpeed) == Abs(z) * Abs(z)
  {
    PlanarDeadzone(x, y, root);
    PlanarScaling(x, y, root);
    var (px, py) := PlanarResponse(x, y, root);
    Cartesian(px, py, TwistResponse(z))
  }

  /**
   * On [0, 1] squaring never grows a number. The square is passed in as m so
   * that callers can hand over a term they already hold for it.
   */
  lemma SquareAtMostSelf(a: real, m: real)
    requires 0.0 <= a <= 1.0
    requires m == a * a
    ensures m <= a
  {
    SquareBelowOne(a);
  }

  lemma SquareBelowOne(a: real)
    requires 0.0 <= a <= 1.0
    ensures a * a <= a
  {
  }

  /**
   * Inside the unit disk (and outside the deadzone) the output magnitude is the
   * input magnitude squared, so it never exceeds the input magnitude.
   */
  lemma InsideUnitDisk(x: real, y: real, root: real)
    requires IsSqrt(root, CappedSquare(x, y))
    requires x * x + y * y <= 1.0
    ensures var p := PlanarResponse(x, y, root); !InPlanarDeadzone(x, y) ==>
      p.0 * p.0 + p.1 * p.1 == (x * x + y * y) * (x * x + y * y)
    ensures var p := PlanarResponse(x, y, root);
      p.0 * p.0 + p.1 * p.1 <= x * x + y * y
  {
    var sq := x * x + y * y;
    assert CappedSquare(x, y) == sq;
    if InPlanarDeadzone(x, y) {
      PlanarScaling(x, y, root);
    } else {
      PlanarMagnitude(x, y, root);
      SquareAtMostSelf(sq, sq * sq);
    }
  }

  /** Over-unit input is not shrunk: the factor is 1 and (x, y) pass through unchanged. */
  lemma OverUnitPassesThrough(x: real, y: real, root: real)
    requires IsSqrt(root, CappedSquare(x, y))
    requires x * x + y * y > 1.0
    ensures PlanarResponse(x, y, root) == (x, y)
  {
    PlanarScaling(x, y, root);
    SqrtUnique(root, 1.0, 1.0);
  }

  /** With the stick inside [-1, 1] the twist response never exceeds the raw twist. */
  lemma TwistNeverGrows(z: real)
    requires Abs(z) <= 1.0
    ensures Abs(TwistResponse(z)) <= Abs(z)
  {
    if !InTwistDeadzone(z) {
      SquareAtMostSelf(Abs(z), Abs(TwistResponse(z)));
    }
  }

  /** The twist output depends only on z: the planar inputs and root play no part in it. */
  lemma TwistIndependent(x1: real, y1: real, root1: real, x2: real, y2: real, root2: real, z: real)
    requires IsSqrt(root1, CappedSquare(x1, y1))
    requires IsSqrt(root2, CappedSquare(x2, y2))
    ensures ShapeStick(x1, y1, z, root1).zSpeed == ShapeStick(x2, y2, z, root2).zSpeed
  {
  }

  /**
   * The planar output depends only on (x, y): the twist plays no part, and
   * any two answers Math.sqrt could give agree.
   */
  lemma PlanarIndependent(x: real, y: real, z1: real, root1: real, z2: real, root2: real)
    requires IsSqrt(root1, CappedSquare(x, y))
    requires IsSqrt(root2, CappedSquare(x, y))
    ensures ShapeStick(x, y, z1, root1).xSpeed == ShapeStick(x, y, z2, root2).xSpeed
    ensures ShapeStick(x, y, z1, root1).ySpeed == ShapeStick(x, y, z2, root2).ySpeed
  {
    SqrtUnique(root1, root2, CappedSquare(x, y));
  }

  /** Turning the stick a quarter turn keeps its capped squared magnitude. */
  lemma QuarterTurn(x: real, y: real)
    ensures CappedSquare(-y, x) == CappedSquare(x, y)
  {
    assert (-y) * (-y) == y * y;
  }

  /**
   * The joystick drive: forward is the primary stick's Y axis negated (pushing
   * the stick away reads negative), strafe is its X axis, twist is the
   * secondary stick's X axis; all three go through ShapeStick.
   */
  function JoystickDrive(primaryX: real, primaryY: real, secondaryX: real, root: real): (c: Cartesian)
    requires IsSqrt(root, CappedSquare(primaryX, primaryY))
    ensures c == ShapeStick(-primaryY, primaryX, secondaryX, root)
    ensures c.xSpeed * primaryX == -(c.ySpeed * primaryY)
    ensures c.xSpeed * primaryY <= 0.0 && c.ySpeed * primaryX >= 0.0
  {
    var forward, strafe := -primaryY, primaryX;
    QuarterTurn(primaryX, primaryY);
    PlanarDirection(forward, strafe, root);
    ShapeStick(forward, strafe, secondaryX, root)
  }
}

=== FILE: elevator.dfy ===
/**
 * ElevatorSubsytem: the software travel limits applySpeed puts on a requested
 * motor speed, the two-throttle blend of elevator(), and isStill. Encoder
 * readings, the hall-effect limit switch and the joystick throttles are
 * inputs; the motor output is the result.
 */
module Elevator {

  /** Six inches in metres: the margin kept below the maximum height. */
  const TopMarginMeters: real := 0.1524

  /**
   * The Constants the gate reads, in metres: elevator travel per motor
   * rotation and the maximum height.
   */
  datatype ElevatorConfig = ElevatorConfig(heightPerRotationMeters: real, maxHeightMeters: real)

  /** The height (metres) at and above which upward motion is refused. */
  function UpperLimitMeters(config: ElevatorConfig): real
  {
    config.maxHeightMeters - TopMarginMeters
  }

  /** The encoder position (rotations) and the speed handed to the motor. */
  datatype Gated = Gated(position: real, output: real)

  /**
   * The safety property the gate keeps: no downward command at or below the
   * bottom, no upward command at or above the upper limit.
   */
  predicate SafeCommand(config: ElevatorConfig, position: real, speed: real)
  {
    && !(position <= 0.0 && speed < 0.0)
    && !(position * config.heightPerRotationMeters >= UpperLimitMeters(config) && speed > 0.0)
  }

  /**
   * applySpeed: when limitSwitch.get() is true the encoder is first zeroed
   * (limitSwitch is that reading; which physical state it means depends on
   * the sensor's wiring); the requested speed is then passed through when it is safe at that position and
   * replaced by 0 otherwise.
   */
  function ApplySpeed(config: ElevatorConfig, limitSwitch: bool, position: real, speed: real): (g: Gated)
    ensures g.position == if limitSwitch then 0.0 else position
    ensures g.output == 0.0 || g.output == speed
    ensures SafeCommand(config, g.position, g.output)
    ensures SafeCommand(config, g.position, speed) ==> g.output == speed
  {
    var pos := if limitSwitch then 0.0 else position;
    var out :=
      if (pos <= 0.0 && speed < 0.0)
         || (pos * config.heightPerRotationMeters >= UpperLimitMeters(config) && speed > 0.0)
      then 0.0 else speed;
    Gated(pos, out)
  }

  /** The individual cases of the gate, as a caller would check them. */
  lemma ApplySpeedCases(config: ElevatorConfig, limitSwitch: bool, position: real, speed: real)
    ensures var g := ApplySpeed(config, limitSwitch, position, speed);
      && (speed == 0.0 ==> g.output == 0.0)
      && (limitSwitch && speed < 0.0 ==> g.output == 0.0)
      && (g.position <= 0.0 && speed < 0.0 ==> g.output == 0.0)
      && (g.position * config.heightPerRotationMeters >= UpperLimitMeters(config) && speed > 0.0 ==> g.output == 0.0)
      && (g.position > 0.0 && g.position * config.heightPerRotationMeters < UpperLimitMeters(config) ==> g.output == speed)
  {
  }

  /** Gating twice changes nothing: the output of the gate is always safe to pass again. */
  lemma ApplySpeedIdempotent(config: ElevatorConfig, limitSwitch: bool, position: real, speed: real)
    ensures var g := ApplySpeed(config, limitSwitch, position, speed);
      ApplySpeed(config, limitSwitch, g.position, g.output) == g
  {
  }

  /**
   * elevator(): the speed sent to the motor from the two joysticks'
   * throttles (each in [-1, 1]); it is their mean.
   */
  function ThrottleBlend(primaryThrottle: real, secondaryThrottle: real): (speed: real)
    ensures speed * 2.0 == primaryThrottle + secondaryThrottle
    ensures primaryThrottle <= secondaryThrottle ==> primaryThrottle <= speed <= secondaryThrottle
    ensures secondaryThrottle <= primaryThrottle ==> secondaryThrottle <= speed <= primaryThrottle
  {
    ((primaryThrottle + 1.0) / 2.0) + ((secondaryThrottle - 1.0) / 2.0)
  }

  /** Neither stick's throttle has priority. */
  lemma ThrottleBlendSymmetric(primaryThrottle: real, secondaryThrottle: real)
    ensures ThrottleBlend(primaryThrottle, secondaryThrottle) == ThrottleBlend(secondaryThrottle, primaryThrottle)
  {
  }

  /** With both throttles in range, so is the blend. */
  lemma ThrottleBlendInRange(primaryThrottle: real, secondaryThrottle: real)
    requires -1.0 <= primaryThrottle <= 1.0 && -1.0 <= secondaryThrottle <= 1.0
    ensures -1.0 <= ThrottleBlend(primaryThrottle, secondaryThrottle) <= 1.0
  {
  }

  /** isStill: both encoders report no motion in either direction. */
  function IsStill(leadVelocity: real, minionVelocity: real): (still: bool)
    ensures still <==> !(leadVelocity > 0.0 || leadVelocity < 0.0 || minionVelocity > 0.0 || minionVelocity < 0.0)
  {
    leadVelocity == 0.0 && minionVelocity == 0.0
  }
}

=== FILE: numerics.dfy ===
/** The few java.lang.Math operations the robot code uses, on exact reals. */
module Numerics {

  /** Strictly positive reals: physical constants such as a wheel diameter. */
  type PosReal = r: real | r > 0.0 witness 1.0

  /** Math.abs */
  function Abs(r: real): (a: real)
    ensures a >= 0.0
    ensures a == r || a == -r
  {
    if r < 0.0 then -r else r
  }

  /** Math.signum: -1, 0 or 1 according to the sign of r. */
  function Signum(r: real): (s: real)
    ensures s == 1.0 || s == 0.0 || s == -1.0
    ensures s > 0.0 <==> r > 0.0
    ensures s < 0.0 <==> r < 0.0
  {
    if r > 0.0 then 1.0 else if r < 0.0 then -1.0 else 0.0
  }

  /** True when root is the non-negative square root of s (what Math.sqrt returns). */
  predicate IsSqrt(root: real, s: real)
  {
    root >= 0.0 && root * root == s
  }

  /** A number has at most one non-negative square root, so Math.sqrt's answer is determined. */
  lemma SqrtUnique(a: real, b: real, s: real)
    requires IsSqrt(a, s) && IsSqrt(b, s)
    ensures a == b
  {
    assert (a - b) * (a + b) == 0.0;
    if a + b != 0.0 {
      assert a - b == ((a - b) * (a + b)) / (a + b);
    }
  }
}

=== FILE: utilities.dfy ===
/**
 * Utilities: conversions between wheel rotations and linear distance through
 * the wheel circumference, and the per-encoder velocity memo behind
 * linearVelocity. The wheel diameter (a Constants value) is a parameter; the
 * clock and the encoder reading are inputs.
 */
module Utilities {
  import opened Numerics
  import opened Wrappers

  /** Math.PI, as the decimal literal Java prints for it. */
  const Pi: real := 3.141592653589793
  /** The exact length of an inch in metres, the WPILib base unit of Distance. */
  const MetersPerInch: real := 0.0254

  /** The distance (inches) one rotation of a wheel of the given diameter (inches) covers. */
  function Circumference(wheelDiameterInches: PosReal): (c: real)
    ensures c > 0.0
  {
    Pi * wheelDiameterInches
  }

  /** inchesToRotations: the number of rotations that cover the given inches. */
  function InchesToRotations(inches: real, wheelDiameterInches: PosReal): (rotations: real)
    ensures rotations * Circumference(wheelDiameterInches) == inches
  {
    inches / Circumference(wheelDiameterInches)
  }

  /** rotationsToInches: the inches that the given rotations cover. */
  function RotationsToInches(rotations: real, wheelDiameterInches: PosReal): (inches: real)
    ensures inches / Circumference(wheelDiameterInches) == rotations
  {
    rotations * Circumference(wheelDiameterInches)
  }

  /** A WPILib Distance measure, held as its magnitude in the base unit (metres). */
  datatype Distance = Distance(meters: real)

  /** Units.Inches.of(v) */
  function Inches(v: real): (d: Distance)
    ensures InInches(d) == v
  {
    Distance(v * MetersPerInch)
  }

  /** d.in(Units.Inches) */
  function InInches(d: Distance): real
  {
    d.meters / MetersPerInch
  }

  /** distanceToRotations: the number of rotations that cover the distance d. */
  function DistanceToRotations(d: Distance, wheelDiameterInches: PosReal): (rotations: real)
    ensures rotations * Circumference(wheelDiameterInches) == InInches(d)
  {
    InInches(d) / Circumference(wheelDiameterInches)
  }

  /** rotationsToDistance: the distance that the given rotations cover. */
  function RotationsToDistance(rotations: real, wheelDiameterInches: PosReal): (d: Distance)
    ensures InInches(d) / Circumference(wheelDiameterInches) == rotations
  {
    Inches(rotations * Circumference(wheelDiameterInches))
  }

  /** Inches to rotations and back, and rotations to inches and back, are identities. */
  lemma InchesRoundTrip(inches: real, rotations: real, wheelDiameterInches: PosReal)
    ensures RotationsToInches(InchesToRotations(inches, wheelDiameterInches), wheelDiameterInches) == inches
    ensures InchesToRotations(RotationsToInches(rotations, wheelDiameterInches), wheelDiameterInches) == rotations
  {
    var c := Circumference(wheelDiameterInches);
    assert (inches / c) * c == inches;
    assert (rotations * c) / c == rotations;
  }

  /** The same round trips through the Distance measure. */
  lemma DistanceRoundTrip(d: Distance, rotations: real, wheelDiameterInches: PosReal)
    ensures RotationsToDistance(DistanceToRotations(d, wheelDiameterInches), wheelDiameterInches) == d
    ensures DistanceToRotations(RotationsToDistance(rotations, wheelDiameterInches), wheelDiameterInches) == rotations
  {
    var c := Circumference(wheelDiameterInches);
    assert (InInches(d) / c) * c == InInches(d);
    assert (d.meters / MetersPerInch) * MetersPerInch == d.meters;
    assert (rotations * c) / c == rotations;
  }

  /** The Distance conversions agree with the inch conversions. */
  lemma DistanceAgreesWithInches(d: Distance, rotations: real, wheelDiameterInches: PosReal)
    ensures DistanceToRotations(d, wheelDiameterInches) == InchesToRotations(InInches(d), wheelDiameterInches)
    ensures InInches(RotationsToDistance(rotations, wheelDiameterInches)) == RotationsToInches(rotations, wheelDiameterInches)
  {
  }

  /**
   * rotationsToInches is linear: 0 goes to 0, one rotation to the
   * circumference pi*D, sums to sums, and the sign is kept.
   */
  lemma RotationsToInchesLinear(r1: real, r2: real, wheelDiameterInches: PosReal)
    ensures RotationsToInches(0.0, wheelDiameterInches) == 0.0
    ensures RotationsToInches(1.0, wheelDiameterInches) == Pi * wheelDiameterInches
    ensures RotationsToInches(r1 + r2, wheelDiameterInches)
         == RotationsToInches(r1, wheelDiameterInches) + RotationsToInches(r2, wheelDiameterInches)
    ensures Signum(RotationsToInches(r1, wheelDiameterInches)) == Signum(r1)
  {
    var c := Circumference(wheelDiameterInches);
    assert (r1 + r2) * c == r1 * c + r2 * c;
    if r1 > 0.0 {
      assert r1 * c > 0.0;
    } else if r1 < 0.0 {
      assert r1 * c < 0.0;
    }
  }

  /** Likewise inchesToRotations and distanceToRotations. */
  lemma ToRotationsLinear(i1: real, i2: real, wheelDiameterInches: PosReal)
    ensures InchesToRotations(0.0, wheelDiameterInches) == 0.0
    ensures InchesToRotations(Pi * wheelDiameterInches, wheelDiameterInches) == 1.0
    ensures InchesToRotations(i1 + i2, wheelDiameterInches)
         == InchesToRotations(i1, wheelDiameterInches) + InchesToRotations(i2, wheelDiameterInches)
    ensures Signum(InchesToRotations(i1, wheelDiameterInches)) == Signum(i1)
    ensures DistanceToRotations(Inches(i1), wheelDiameterInches) == InchesToRotations(i1, wheelDiameterInches)
  {
    var c := Circumference(wheelDiameterInches);
    assert c / c == 1.0;
    assert (i1 + i2) / c == i1 / c + i2 / c;
    if i1 > 0.0 {
      assert i1 / c > 0.0;
    } else if i1 < 0.0 {
      assert i1 / c < 0.0;
    }
  }

  /** One remembered (distance, time) pair of the velocity memo. */
  datatype Record = Record(distance: real, time: real)

  /** velocityDict: one record per encoder, keyed by the encoder's first DIO channel. */
  type VelocityMemo = map<int, Record>

  /**
   * A Java double quotient: finite, or Infinity/NaN when the divisor is 0
   * (which happens when two readings carry the same timestamp).
   */
  datatype Velocity = Finite(inchesPerSecond: real) | NonFinite

  /** What the Java call throws when encoderChannels is empty. */
  datatype Fault = ChannelIndexOutOfBounds

  /** linearVelocity's return value together with the memo it leaves behind. */
  datatype Reading = Reading(velocity: Velocity, memo: VelocityMemo)

  /** The record a channel starts from when it has none. */
  function Baseline(memo: VelocityMemo, channel: int): (r: Record)
    ensures channel !in memo ==> r == Record(0.0, 0.0)
    ensures channel in memo ==> r == memo[channel]
  {
    if channel in memo then memo[channel] else Record(0.0, 0.0)
  }

  /**
   * linearVelocity. rotations is the encoder count divided by the counts per
   * revolution, now is the utility timer's reading. The memo record for
   * encoderChannels[0] is replaced by the new (distance, time) pair whether or
   * not it existed; the velocity is the finite difference against the
   * previous record.
   */
  function LinearVelocity(memo: VelocityMemo, encoderChannels: seq<int>, rotations: real, now: real,
                          wheelDiameterInches: PosReal): (r: Result<Reading, Fault>)
    ensures |encoderChannels| == 0 <==> r.Failure?
    ensures r.Success? ==>
      var key := encoderChannels[0];
      var prev := Baseline(memo, key);
      var dist := RotationsToInches(rotations, wheelDiameterInches);
      && r.value.memo.Keys == memo.Keys + {key}
      && r.value.memo[key] == Record(dist, now)
      && (forall k :: k in memo && k != key ==> r.value.memo[k] == memo[k])
      && (now == prev.time <==> r.value.velocity.NonFinite?)
      && (r.value.velocity.Finite? ==>
            r.value.velocity.inchesPerSecond * (now - prev.time) == dist - prev.distance)
  {
    if |encoderChannels| == 0 then Failure(ChannelIndexOutOfBounds)
    else
      var currTime := now;
      var currDist := RotationsToInches(rotations, wheelDiameterInches);
      var oldData := Baseline(memo, encoderChannels[0]);
      var linVelocity :=
        if currTime - oldData.time == 0.0 then NonFinite
        else Finite((currDist - oldData.distance) / (currTime - oldData.time));
      Success(Reading(linVelocity, memo[encoderChannels[0] := Record(currDist, currTime)]))
  }

  /** Only encoderChannels[0] is consulted: the other channels never matter. */
  lemma OnlyFirstChannelMatters(memo: VelocityMemo, channels1: seq<int>, channels2: seq<int>,
                                rotations: real, now: real, wheelDiameterInches: PosReal)
    requires |channels1| > 0 && |channels2| > 0 && channels1[0] == channels2[0]
    ensures LinearVelocity(memo, channels1, rotations, now, wheelDiameterInches)
         == LinearVelocity(memo, channels2, rotations, now, wheelDiameterInches)
  {
  }

  /**
   * Reading the same encoder twice: the second call measures the distance
   * covered since the first call over the time between them.
   */
  lemma SecondReadingDifferences(memo: VelocityMemo, channels: seq<int>, rot1: real, t1: real,
                                 rot2: real, t2: real, wheelDiameterInches: PosReal)
    requires |channels| > 0 && t1 != t2
    ensures var first := LinearVelocity(memo, channels, rot1, t1, wheelDiameterInches);
      var second := LinearVelocity(first.value.memo, channels, rot2, t2, wheelDiameterInches);
      second.value.velocity == Finite(RotationsToInches(rot2 - rot1, wheelDiameterInches) / (t2 - t1))
  {
    var c := Circumference(wheelDiameterInches);
    assert rot2 * c - rot1 * c == (rot2 - rot1) * c;
  }
}

=== FILE: wrappers.dfy ===
/** A failure-compatible wrapper for the places where the Java code can throw. */
module Wrappers {

  /** Success carries a value; Failure carries the exception the Java code would throw. */
  datatype Result<+R, +E> = Success(value: R) | Failure(error: E)
}
